=== FILE: README.md ===
# FamilyCakePOS transaction engine in Dafny

This project models the point-of-sale engine of the FamilyCakePOS web app
(`app.js`). Underneath the React and document-store code, the engine is a
series of state transitions over a small in-memory state:

- the product and customer catalogues, as maps from id to record;
- the append-only sales and expense ledgers;
- the signed-in user's held carts;
- the active session: the cart lines, the selected customer (empty for a
  walk-in), the customer class (retail or wholesale), the payment method
  and payment inputs, and the return form.

Every operation is a pure function. The store-level transitions (checkout,
hold, resume, discard, return and manual sale) take a `State` and give a
`Step<State>`. Adding a product and stepping a quantity work on the cart
and the product catalogue and give a `Step` of the cart. Removing a line
gives the filtered cart and clearing gives a `Session`, since neither can
be refused. Payment validation gives a `Checked` settlement (pass or fail
with a reason). A `Step` is `Ok(next)` or `Err(reason, kept)`, and on every
refusal `kept` is the input unchanged.

Modules follow the engine's components:

| file | module | what it holds |
|---|---|---|
| types.dfy | `PosTypes` | products, customers, cart lines, sessions, sales, expenses, held carts, store, `Step` |
| lines.dfy | `Lines` | first-index lookup, uniqueness and filtering over cart lines |
| pricing.dfy | `Pricing` | unit price by customer class, cart total, profit and cost |
| cart.dfy | `Cart` | add, step quantity, remove and clear, and the invariant they keep |
| payment.dfy | `Payment` | cash / credit / mobile / split validation and settlement |
| inventory.dfy | `Inventory` | the per-line stock write-back used by checkout and return |
| commit.dfy | `Commit` | checkout: stock, credit, sale record, cleared session |
| held.dfy | `Held` | hold, resume and discard of parked carts |
| returns.dfy | `Returns` | refund of a recorded sale |
| manual.dfy | `Manual` | manual single-product sale |
| scenarios.dfy | `Scenarios` | worked examples on one product |

Modelling choices:

- Money and quantities are whole `int`s, in MMK. The source reads the cart
  total and profit back from the rendered page. The source computes in
  double-precision numbers. For whole amounts below 2^53 that arithmetic is
  exact, so the rendered text is the computed sum and the model computes it
  from the cart.
- Optional numbers that the source reads as `x || 0` are `Option<int>`, and
  `OrZero` gives 0 for `None`. This covers the three prices on a product or
  cart line, and the four payment inputs. The form parsing (`parseFloat`,
  `parseInt`) happens before the engine: a blank or unparsable entry is
  `None`.
- Stock write-back. Checkout and return read each product from the
  catalogue as it stood when the operation began. They then write that
  value, moved by the line quantity, once per line. A line whose product has
  gone from the catalogue is skipped. `Inventory.WriteBack` is this fold.
  With one line per product (which the cart guarantees), each product moves
  by exactly its own line.
- The administrator flag and "a user is signed in" are plain boolean
  parameters. Ids the store assigns to new sale and held records are
  parameters too.
- Confirmation dialogs are taken as confirmed.

The model follows the code where it is lax:

- A cart line whose product has disappeared is skipped at checkout. The
  checkout is not aborted.
- Resuming an unknown held id does nothing and shows no message.
- Returning a manual sale fails without any write. Its record has no line
  list, so the restock loop throws before the first write.
- Checkout does not re-check stock, so a stale cart can drive stock
  negative. The model proves stock stays non-negative only when the cart
  is within stock at checkout time.

## Model

| member | source | states |
|---|---|---|
| Lines.IndexOf | app.js:620 | The first line carrying the id, or none exactly when no line carries it |
| Lines.WithoutMembers | app.js:644-646 | The filtered lines are exactly the lines carrying another product's id |
| Lines.WithoutAppend | app.js:644-646 | Filtering a cart distributes over concatenation, so removal keeps the order of the remaining lines |
| Pricing.TotalMinusProfitIsCost | app.js:1522-1534 | For either class, total minus profit is the sum of purchase price times quantity |
| Pricing.TotalAppend | app.js:1522 | The total of two carts laid end to end is the sum of their totals |
| Pricing.TotalUpdate | app.js:1522 | Replacing one line changes the total by exactly that line's difference |
| Pricing.TotalNonNegative | app.js:1522-1528 | With non-negative tier prices and quantities the total is non-negative |
| Cart.AddProduct | app.js:589-616 | An unknown id is refused and changes nothing. A product without a line is appended at the end with quantity 1 and a price snapshot, only when stock > 0. A product with a line is accepted only when its quantity < stock. A line already on the cart gains exactly one unit, and lines of other products are untouched |
| Cart.BumpIsUpdate | app.js:596-598 | With unique ids, incrementing "every line with this id" increments exactly the one line |
| Cart.AddKeepsWellFormed | app.js:589-616 | Adding keeps ids unique, quantities at least 1, and every quantity within its product's stock |
| Cart.AddRaisesTotal | app.js:589-616 | An accepted add raises the cart total by one unit price of that product |
| Cart.ChangeQuantity | app.js:618-642 | +1 is applied only when quantity < stock, and the result stays within stock. -1 always applies and removes the line when it reaches 0. An id not on the cart, a product gone from the catalogue, or any other change leaves the cart as it was |
| Cart.ChangeKeepsWellFormed | app.js:618-642 | Stepping a quantity keeps ids unique, quantities at least 1 and lines within stock |
| Cart.ChangeMovesTotal | app.js:618-642 | A +1 or -1 step moves the total by exactly one unit price, including the step that removes the line |
| Cart.RemoveItem | app.js:644-646 | The remaining lines are exactly the cart's lines for other products, and a product without a line leaves the cart unchanged. Their order is kept, as Lines.WithoutAppend and Cart.RemoveIsSplice show |
| Cart.RemoveIsSplice | app.js:644-646 | With unique ids, removing a product is splicing out its single line, the same cart a -1 from quantity 1 gives |
| Cart.WithoutSplice | app.js:644-646 | Filtering out an id that only one line carries drops exactly that line and keeps the lines before and after it in order |
| Cart.RemoveKeepsWellFormed | app.js:644-646 | Removing a line keeps the cart well formed |
| Cart.SessionKeepsWellFormed | app.js:589-646 | For any sequence of add, step and remove actions, no line exceeds stock, no product has two lines and no quantity drops below 1 |
| Cart.ClearSession | app.js:648-658 | Clearing empties the cart and resets to cash, walk-in, retail and blank payment inputs. The return form is kept |
| Payment.Settle | app.js:727-764 | Cash is accepted iff received ≥ total. Split is accepted iff cash+credit+mobile ≥ total. Credit is accepted iff a customer is selected. Mobile is always accepted. Every accepted settlement has change ≥ 0 and cash+credit+mobile = total + change, with no change for credit or mobile |
| Inventory.WriteBackAt | app.js:768-776 | With one line per product, the stale-read write-back moves each product by its own line's quantity and leaves products without a line unchanged |
| Inventory.ApplyAt | app.js:952-958 | The same per-product effect, starting from the catalogue itself |
| Commit.PostCredit | app.js:779-786 | Only the selected customer's balance changes, by the amount. Names and the set of customers stay the same, and an unknown customer changes nothing |
| Commit.CompleteSale | app.js:727-809 | An empty cart or a failed payment check is refused and changes nothing. Otherwise exactly one sale is appended: the cart lines, 'walk-in' for no customer, total, profit, the customer name (walk-in label, stored name, or 'Unknown Customer'), and exactly the amounts the payment check settles on, with paid = total + change. Credit is posted only for a selected customer paying by credit or by split with credit > 0, by the recorded credit amount. Customer names, expenses and held carts are untouched, and the session is cleared |
| Commit.CommitMovesStock | app.js:768-776 | Each product on the cart loses its line quantity from stock and gains it in sales count, keeping its name and prices (a partial write). Other products are unchanged |
| Commit.CommitKeepsStockNonNegative | app.js:768-776 | If every line is within stock and no stock is negative, none is negative after checkout |
| Commit.CommitTwiceRefused | app.js:727-731 | After a checkout the cart is empty, so a second checkout is refused and changes nothing |
| Commit.CreditCharged | app.js:747-786 | A selected customer is charged the whole total on a credit sale, the entered credit part on a split sale when it is positive, and nothing on a cash or mobile sale |
| Commit.WalkInSplitCreditUnposted | app.js:779-786 | A walk-in split payment with a credit part is accepted, yet no customer balance changes |
| Held.FindHeld | app.js:844 | The first held cart with the id, or none exactly when no held cart carries it |
| Held.DropHeld | app.js:853 | Deleting keeps exactly the held carts whose id differs |
| Held.DropAbsent | app.js:853 | Deleting an id no held cart carries changes nothing |
| Held.DropAppend | app.js:853 | Deleting distributes over concatenation of held lists |
| Held.HeldCustomer | app.js:832 | The stored customer id is none exactly for the walk-in customer |
| Held.SessionCustomer | app.js:850 | The restored customer id is empty exactly for a stored none or empty id |
| Held.Hold | app.js:816-841 | An empty cart or no signed-in user is refused and changes nothing. Otherwise one held record is appended, holding the cart, class, customer name (walk-in label, stored name or 'Unknown Customer') and customer id (none for a walk-in), the rest of the store is unchanged, and the session is cleared |
| Held.Resume | app.js:843-859 | An unknown id is refused and changes nothing. Otherwise the session is cleared and given exactly the held items, class and customer. The record is deleted when a user is signed in, and nothing else in the store changes |
| Held.Discard | app.js:861-872 | Without a signed-in user nothing changes. Otherwise exactly the held carts with that id are deleted and the session is untouched |
| Held.HoldThenResume | app.js:816-859 | Hold followed by resume restores the pre-hold items, class and customer with payment inputs reset, and gives back the original store |
| Held.DiscardThenResume | app.js:861-872 | A discarded held cart cannot be resumed |
| Returns.FindSale | app.js:943 | The first sale with the id, or none exactly when no sale carries it |
| Returns.ProcessReturn | app.js:932-978 | Accepted iff: admin flag set, sale id and reason non-empty, sale found and a checkout sale. Otherwise nothing changes. On success exactly one refund expense is appended (total amount, supplier 'N/A'). Sales, customers, held carts and every sales count are unchanged, and the return form is cleared |
| Returns.RestockKeepsSalesCount | app.js:952-958 | The restock write-back never changes a sales count |
| Returns.ReturnRestocks | app.js:952-958 | Each product on the returned sale gains its line quantity in stock, keeping its sales count, name and prices. Other products are unchanged |
| Returns.FindAppended | app.js:943 | A sale appended under an id no earlier sale carries is found at the end of the ledger |
| Returns.SellThenReturn | app.js:932-978 | Returning a just-committed sale restores every stock level, but sales counts stay raised. The sale record and any posted credit stay, and a refund of the full total is booked |
| Returns.ReturnIsRepeatable | app.js:943-966 | Nothing marks a sale as returned: the same sale can be refunded again, booking a second expense |
| Manual.RecordSale | app.js:981-1044 | Accepted iff: admin, a product id and a positive whole quantity, the product exists, and quantity ≤ stock. On success only the sold product changes: stock drops by the quantity (staying ≥ 0) and sales count rises by it. The appended manual sale has the found customer's name or 'Walk-in Customer', the tier unit price, total = price × quantity and profit = (price − purchase) × quantity. Only a found customer paying by credit is charged the total, customer names are unchanged, and the session is untouched |
| Manual.ManualMatchesCheckout | app.js:1004-1006 | A manual sale has the same total and profit as a one-line cart of that product at checkout, with bulk priced as wholesale |
| Scenarios.CashSale | app.js:727-809 | Cash 2000 for three 500 cakes (stock 10, cost 300): total 1500, change 500, profit 600, stock 7 |
| Scenarios.SplitSale | app.js:747-755 | Split 500/500/500 covers a 1500 total with no change |
| Scenarios.CreditWithoutCustomer | app.js:756-761 | Credit for a walk-in customer is refused and nothing changes |
| Scenarios.AddSoldOut | app.js:603-614 | Adding a product with stock 0 is refused and the cart stays empty |
| Scenarios.ReturnCashSale | app.js:932-978 | Returning the cash sale puts stock back to 10 and books a 1500 refund. The sale and its sales count are kept |

## Left out

- Authentication, the admin-email rule and store initialisation: the administrator flag and the signed-in user are parameters.
- Live subscriptions and the separate asynchronous writes of one operation: the store is an in-memory value and every operation is one atomic transition. Failed store writes are not modelled.
- Catalogue CRUD for products, suppliers, customers and expenses. These are thin form-validated writes outside the engine. Product category and supplier, customer contact and address, and the supplier records are not modelled for the same reason.
- Timestamps on sales, expenses and held carts: they come from the clock.
- Dashboard statistics, reports and their download, the change and customer-balance displays, and the manual-sale price preview. They only display values the model already computes.
- The receipt text and printing. They depend on locale date formatting and a browser window.
- Alert messages. The refusal reason in `Step` stands in for them.
- Staleness between a render and a click. Adding a product in the source checks the stock bound against the cart of the last render and then updates the latest cart (stepping a quantity decides on the latest cart, and removal checks nothing). The model takes them as the same cart (one operation at a time).
- Repeated state-updater runs. Stepping a quantity changes the line object in place (app.js:628, 633), and that object is shared with the previous cart. A development build under React's strict mode runs the updater twice and so moves the quantity by 2. The model describes a single updater run, as in a production build.
- Amounts outside whole numbers below 2^53. Prices, payment entries, stock, sales counts and credit are assumed whole and below 2^53 MMK, where the source's double arithmetic (app.js:1522, 772-773, 783, 956, 1027) is exact. Above that bound the source rounds and the model's unbounded `int` does not. Fractional payment entries, which `parseFloat` accepts, are outside the model.
- Cart.AddProduct: the source's duplicate-line behaviour (every line with the id is incremented) is modelled as written. The quantity bound is stated only for carts with unique ids, which every cart operation keeps.
- Commit.CommitKeepsStockNonNegative: stated for carts within stock at checkout. The source does not re-check stock when it commits.

=== FILE: cart.dfy ===
/** The cart state machine: adding a product, stepping a line's quantity up
    or down, removing a line and clearing the session. Every quantity check is
    made against the product's live stock. */
module Cart {
  import opened PosTypes
  import opened Lines
  import opened Pricing

  /** A new line for product `id`: quantity 1 and the product's current name
      and prices. */
  function Snapshot(id: ProductId, p: Product): CartLine
  {
    CartLine(id, p.name, p.purchasePrice, p.bulkPrice, p.individualPrice, 1)
  }

  /** Every line for product `id` with its quantity raised by one. */
  function Bump(cart: seq<CartLine>, id: ProductId): (r: seq<CartLine>)
    ensures |r| == |cart|
  {
    seq(|cart|, k requires 0 <= k < |cart| =>
      if cart[k].id == id then cart[k].(quantity := cart[k].quantity + 1) else cart[k])
  }

  predicate PositiveQuantities(cart: seq<CartLine>)
  {
    forall i :: 0 <= i < |cart| ==> cart[i].quantity >= 1
  }

  /** No line asks for more than its product's stock. */
  predicate WithinStock(cart: seq<CartLine>, products: map<ProductId, Product>)
  {
    forall i :: 0 <= i < |cart| && cart[i].id in products ==> cart[i].quantity <= products[cart[i].id].stock
  }

  /** The invariant the cart operations keep. */
  predicate WellFormed(cart: seq<CartLine>, products: map<ProductId, Product>)
  {
    UniqueIds(cart) && PositiveQuantities(cart) && WithinStock(cart, products)
  }

  /** Add one unit of product `id`: an unknown product is ignored, a product
      already on the cart gains one unit while it stays within stock, and a new
      product is appended with quantity 1 while it is in stock. */
  function AddProduct(cart: seq<CartLine>, products: map<ProductId, Product>, id: ProductId): (r: Step<seq<CartLine>>)
    ensures r.Err? ==> r.kept == cart
    ensures id !in products ==> r == Err(UnknownProduct, cart)
    ensures id in products && IndexOf(cart, id).None? ==>
      (r.Ok? <==> products[id].stock > 0)
    ensures id in products && IndexOf(cart, id).Some? ==>
      (r.Ok? <==> cart[IndexOf(cart, id).value].quantity < products[id].stock)
    ensures r.Ok? && IndexOf(cart, id).None? ==> r.next == cart + [Snapshot(id, products[id])]
    ensures r.Ok? && IndexOf(cart, id).Some? ==> |r.next| == |cart|
    ensures r.Ok? ==> forall k :: 0 <= k < |cart| && cart[k].id != id ==> r.next[k] == cart[k]
    ensures r.Ok? ==> forall k :: 0 <= k < |cart| && cart[k].id == id ==>
      r.next[k] == cart[k].(quantity := cart[k].quantity + 1)
  {
    if id !in products then Err(UnknownProduct, cart)
    else
      var p := products[id];
      match IndexOf(cart, id)
      case Some(i) =>
        if cart[i].quantity < p.stock then Ok(Bump(cart, id)) else Err(StockExceeded, cart)
      case None =>
        if p.stock > 0 then Ok(cart + [Snapshot(id, p)]) else Err(OutOfStock, cart)
  }

  /** Step the first line for `id` by `change`: +1 only while below stock, -1
      always, removing the line when it reaches 0; any other change, a
      product not on the cart or one gone from the catalogue leaves the cart
      as it was. */
  function ChangeQuantity(cart: seq<CartLine>, products: map<ProductId, Product>, id: ProductId, change: int)
    : (r: Step<seq<CartLine>>)
    ensures r.Err? ==> r.kept == cart
    ensures IndexOf(cart, id).None? ==> r == Err(NotInCart, cart)
    ensures id !in products ==> r.Result() == cart
    ensures change != 1 && change != -1 ==> r.Result() == cart
    ensures change == 1 && r.Ok? && IndexOf(cart, id).Some? ==>
      var i := IndexOf(cart, id).value;
      r.next == cart[i := cart[i].(quantity := cart[i].quantity + 1)] && r.next[i].quantity <= products[id].stock
    ensures change == 1 && id in products && IndexOf(cart, id).Some? ==>
      (r.Ok? <==> cart[IndexOf(cart, id).value].quantity < products[id].stock)
    ensures change == -1 && id in products && IndexOf(cart, id).Some? ==>
      var i := IndexOf(cart, id).value;
      r.Ok? &&
      (cart[i].quantity <= 1 ==> r.next == cart[..i] + cart[i + 1..]) &&
      (cart[i].quantity > 1 ==> r.next == cart[i := cart[i].(quantity := cart[i].quantity - 1)])
  {
    match IndexOf(cart, id)
    case None => Err(NotInCart, cart)
    case Some(i) =>
      if id !in products then Err(UnknownProduct, cart)
      else if change == 1 then
        if cart[i].quantity < products[id].stock then Ok(cart[i := cart[i].(quantity := cart[i].quantity + 1)])
        else Err(StockExceeded, cart)
      else if change == -1 then
        if cart[i].quantity - 1 <= 0 then Ok(cart[..i] + cart[i + 1..])
        else Ok(cart[i := cart[i].(quantity := cart[i].quantity - 1)])
      else Ok(cart)
  }

  /** Drop every line for product `id`; the other lines keep their order. */
  function RemoveItem(cart: seq<CartLine>, id: ProductId): (r: seq<CartLine>)
    ensures forall k :: 0 <= k < |r| ==> r[k].id != id
    ensures forall l :: l in r <==> l in cart && l.id != id
    ensures IndexOf(cart, id).None? ==> r == cart
  {
    WithoutMembers(cart, id);
    Without(cart, id)
  }

  /** Removing a product's only line is splicing that line out: the same cart
      that stepping its quantity down from 1 produces. */
  lemma RemoveIsSplice(cart: seq<CartLine>, i: nat)
    requires UniqueIds(cart)
    requires i < |cart|
    ensures RemoveItem(cart, cart[i].id) == cart[..i] + cart[i + 1..]
  {
    var before, after := cart[..i], cart[i + 1..];
    assert cart == before + [cart[i]] + after;
    WithoutSplice(before, cart[i], after);
  }

  /** Filtering out the id of a line that no other line carries drops just
      that line. */
  lemma {:induction false} WithoutSplice(before: seq<CartLine>, l: CartLine, after: seq<CartLine>)
    requires forall j :: 0 <= j < |before| ==> before[j].id != l.id
    requires forall j :: 0 <= j < |after| ==> after[j].id != l.id
    ensures Without(before + [l] + after, l.id) == before + after
  {
    var whole := before + [l] + after;
    if |before| == 0 {
      assert whole == [l] + after;
      assert whole[1..] == after;
    } else {
      assert whole[0] == before[0];
      assert whole[1..] == before[1..] + [l] + after;
      WithoutSplice(before[1..], l, after);
      assert before + after == [before[0]] + (before[1..] + after);
    }
  }

  /** The cart state clearCart leaves: no lines, cash payment, walk-in retail
      customer and empty payment inputs; the return form is kept. */
  function ClearSession(ss: Session): (r: Session)
    ensures r.cart == [] && r.customerId == "" && r.customerClass == Retail && r.payment == Cash
    ensures r.cashReceived.None? && r.cashAmount.None? && r.creditAmount.None? && r.mobileAmount.None?
    ensures r.returnSaleId == ss.returnSaleId && r.returnReason == ss.returnReason
  {
    ss.(cart := [], customerId := "", customerClass := Retail, payment := Cash,
        cashReceived := None, cashAmount := None, creditAmount := None, mobileAmount := None)
  }

  /** With unique ids, raising "every line for id" raises exactly line i. */
  lemma BumpIsUpdate(cart: seq<CartLine>, i: nat)
    requires UniqueIds(cart)
    requires i < |cart|
    ensures Bump(cart, cart[i].id) == cart[i := cart[i].(quantity := cart[i].quantity + 1)]
  {
  }

  /** Adding keeps ids unique, quantities positive and every line within stock. */
  lemma AddKeepsWellFormed(cart: seq<CartLine>, products: map<ProductId, Product>, id: ProductId)
    requires WellFormed(cart, products)
    ensures WellFormed(AddProduct(cart, products, id).Result(), products)
  {
  }

  /** Each accepted add raises the total by one unit price of that product. */
  lemma AddRaisesTotal(cart: seq<CartLine>, products: map<ProductId, Product>, id: ProductId, c: CustomerClass)
    requires UniqueIds(cart)
    requires AddProduct(cart, products, id).Ok?
    ensures var i := IndexOf(cart, id);
      var added := if i.Some? then cart[i.value] else Snapshot(id, products[id]);
      CartTotal(AddProduct(cart, products, id).next, c) == CartTotal(cart, c) + UnitPrice(added, c)
  {
    match IndexOf(cart, id)
    case Some(i) =>
      assert AddProduct(cart, products, id).next == Bump(cart, id);
      BumpIsUpdate(cart, i);
      StepTotal(cart, i, 1, c);
    case None =>
      var l := Snapshot(id, products[id]);
      assert AddProduct(cart, products, id).next == cart + [l];
      TotalAppend(cart, [l], c);
      assert CartTotal([l], c) == LineTotal(l, c) + CartTotal([], c);
  }

  /** Splicing out line i lowers the total by that line's amount. */
  lemma TotalSplice(cart: seq<CartLine>, i: nat, c: CustomerClass)
    requires i < |cart|
    ensures CartTotal(cart[..i] + cart[i + 1..], c) == CartTotal(cart, c) - LineTotal(cart[i], c)
  {
    assert cart == cart[..i] + ([cart[i]] + cart[i + 1..]);
    TotalAppend(cart[..i], [cart[i]] + cart[i + 1..], c);
    TotalAppend([cart[i]], cart[i + 1..], c);
    TotalAppend(cart[..i], cart[i + 1..], c);
    assert CartTotal([cart[i]], c) == LineTotal(cart[i], c) + CartTotal([], c);
  }

  /** Stepping a quantity keeps the cart well formed: +1 stays within stock and
      -1 never leaves a line at 0 or below. */
  lemma ChangeKeepsWellFormed(cart: seq<CartLine>, products: map<ProductId, Product>, id: ProductId, change: int)
    requires WellFormed(cart, products)
    ensures WellFormed(ChangeQuantity(cart, products, id, change).Result(), products)
  {
  }

  /** A stepped quantity moves the total by one unit price: up for +1, down
      for -1 (including the step that removes the line). */
  lemma ChangeMovesTotal(cart: seq<CartLine>, products: map<ProductId, Product>, id: ProductId, change: int, c: CustomerClass)
    requires PositiveQuantities(cart)
    requires change == 1 || change == -1
    requires IndexOf(cart, id).Some?
    requires ChangeQuantity(cart, products, id, change).Ok?
    ensures var i := IndexOf(cart, id).value;
      CartTotal(ChangeQuantity(cart, products, id, change).next, c) == CartTotal(cart, c) + change * UnitPrice(cart[i], c)
  {
    var i := IndexOf(cart, id).value;
    if change == -1 && cart[i].quantity <= 1 {
      assert cart[i].quantity == 1;
      TotalSplice(cart, i, c);
    } else {
      StepTotal(cart, i, change, c);
    }
  }

  /** Moving line i's quantity by `change` moves the total by `change` unit prices. */
  lemma StepTotal(cart: seq<CartLine>, i: nat, change: int, c: CustomerClass)
    requires i < |cart|
    ensures CartTotal(cart[i := cart[i].(quantity := cart[i].quantity + change)], c)
              == CartTotal(cart, c) + change * UnitPrice(cart[i], c)
  {
    var l := cart[i].(quantity := cart[i].quantity + change);
    TotalUpdate(cart, i, l, c);
    var u := UnitPrice(cart[i], c);
    assert UnitPrice(l, c) == u;
    assert u * (cart[i].quantity + change) == u * cart[i].quantity + change * u;
  }

  /** Removing a line keeps the cart well formed. */
  lemma RemoveKeepsWellFormed(cart: seq<CartLine>, products: map<ProductId, Product>, id: ProductId)
    requires WellFormed(cart, products)
    ensures WellFormed(RemoveItem(cart, id), products)
  {
    match IndexOf(cart, id)
    case None =>
    case Some(i) =>
      RemoveIsSplice(cart, i);
      SpliceKeepsUnique(cart, i);
  }

  /** Splicing a line out shifts the later lines down by one and keeps ids unique. */
  lemma SpliceKeepsUnique(cart: seq<CartLine>, i: nat)
    requires UniqueIds(cart)
    requires i < |cart|
    ensures forall k :: 0 <= k < |cart| - 1 ==> (cart[..i] + cart[i + 1..])[k] == (if k < i then cart[k] else cart[k + 1])
    ensures UniqueIds(cart[..i] + cart[i + 1..])
  {
  }

  /** A cashier's action on the cart. */
  datatype CartAction = Add(addId: ProductId) | StepBy(stepId: ProductId, change: int) | Remove(removeId: ProductId)

  function Perform(cart: seq<CartLine>, products: map<ProductId, Product>, a: CartAction): seq<CartLine>
  {
    match a
    case Add(id) => AddProduct(cart, products, id).Result()
    case StepBy(id, d) => ChangeQuantity(cart, products, id, d).Result()
    case Remove(id) => RemoveItem(cart, id)
  }

  function PerformAll(cart: seq<CartLine>, products: map<ProductId, Product>, actions: seq<CartAction>): seq<CartLine>
    decreases |actions|
  {
    if |actions| == 0 then cart else PerformAll(Perform(cart, products, actions[0]), products, actions[1..])
  }

  /** Whatever the cashier clicks, starting from an empty cart, no line ever
      exceeds its product's stock, no product has two lines and no quantity
      drops below 1. */
  lemma {:induction false} SessionKeepsWellFormed(cart: seq<CartLine>, products: map<ProductId, Product>, actions: seq<CartAction>)
    requires WellFormed(cart, products)
    ensures WellFormed(PerformAll(cart, products, actions), products)
    decreases |actions|
  {
    if |actions| > 0 {
      match actions[0] {
        case Add(id) => AddKeepsWellFormed(cart, products, id);
        case StepBy(id, d) => ChangeKeepsWellFormed(cart, products, id, d);
        case Remove(id) => RemoveKeepsWellFormed(cart, products, id);
      }
      SessionKeepsWellFormed(Perform(cart, products, actions[0]), products, actions[1..]);
    }
  }
}

=== FILE: commit.dfy ===
/** Checkout: the cart is priced, the payment validated, and the sale
    committed in one transition that moves stock, posts customer credit,
    appends the sale record and clears the session. */
module Commit {
  import opened PosTypes
  import opened Lines
  import opened Pricing
  import opened Cart
  import opened Payment
  import opened Inventory

  /** The name a record carries for the selected customer: the walk-in label
      when none is selected, "Unknown Customer" when the id is not found or
      the stored name is empty. */
  function CustomerName(customers: map<CustomerId, Customer>, cid: CustomerId): string
  {
    if cid == "" then "Walk-in Customer"
    else if cid in customers && customers[cid].name != "" then customers[cid].name
    else "Unknown Customer"
  }

  /** Whether the sale owes credit to the selected customer: a credit sale, or
      a split sale with a positive credit part, with a customer selected. */
  predicate PostsCredit(ss: Session, st: Settlement)
  {
    ss.customerId != "" && (ss.payment == Credit || (ss.payment == Split && st.credit > 0))
  }

  /** Add `amount` to the balance of customer `cid`, if that customer exists. */
  function PostCredit(customers: map<CustomerId, Customer>, cid: CustomerId, amount: int): (r: map<CustomerId, Customer>)
    ensures r.Keys == customers.Keys
    ensures forall c :: c in customers ==> r[c].name == customers[c].name
    ensures forall c :: c in customers ==> r[c].credit == customers[c].credit + (if c == cid then amount else 0)
  {
    if cid in customers then customers[cid := customers[cid].(credit := customers[cid].credit + amount)]
    else customers
  }

  /** Complete the sale in the session; `saleId` is the id the store gives the
      new sale record. */
  function CompleteSale(s: State, saleId: string): (r: Step<State>)
    ensures r.Err? ==> r.kept == s
    ensures |s.session.cart| == 0 ==> r == Err(EmptyCart, s)
    ensures |s.session.cart| > 0 ==>
      (r.Ok? <==> Settle(CartTotal(s.session.cart, s.session.customerClass), s.session).Pass?)
    ensures r.Ok? ==>
      var ss := s.session;
      var n := r.next.store;
      && r.next.session == ClearSession(ss)
      && n.expenses == s.store.expenses
      && n.held == s.store.held
      && n.products.Keys == s.store.products.Keys
      && |n.sales| == |s.store.sales| + 1
      && n.sales[..|s.store.sales|] == s.store.sales
      && var sale := n.sales[|s.store.sales|];
         && sale.PosSale?
         && sale.id == saleId
         && sale.lines == ss.cart
         && sale.customerId == (if ss.customerId == "" then "walk-in" else ss.customerId)
         && sale.customerClass == ss.customerClass
         && sale.payment == ss.payment
         && sale.totalAmount == CartTotal(ss.cart, ss.customerClass)
         && sale.profit == CartProfit(ss.cart, ss.customerClass)
         && sale.customerName == CustomerName(s.store.customers, ss.customerId)
         && Settle(sale.totalAmount, ss)
              == Pass(Settlement(sale.cashReceived, sale.creditPayment, sale.mobilePayment, sale.change))
         && sale.change >= 0
         && sale.cashReceived + sale.creditPayment + sale.mobilePayment == sale.totalAmount + sale.change
         && n.customers.Keys == s.store.customers.Keys
         && (forall c :: c in s.store.customers ==> n.customers[c].name == s.store.customers[c].name)
         && forall c :: c in s.store.customers ==>
              n.customers[c].credit == s.store.customers[c].credit
                + (if c == ss.customerId && c != "" && (ss.payment == Credit || (ss.payment == Split && sale.creditPayment > 0))
                   then sale.creditPayment else 0)
  {
    var ss := s.session;
    if |ss.cart| == 0 then Err(EmptyCart, s)
    else
      var total := CartTotal(ss.cart, ss.customerClass);
      match Settle(total, ss)
      case Fail(why) => Err(why, s)
      case Pass(st) =>
        var customers := if PostsCredit(ss, st) then PostCredit(s.store.customers, ss.customerId, st.credit)
                         else s.store.customers;
        var sale := PosSale(saleId, ss.cart, if ss.customerId == "" then "walk-in" else ss.customerId,
                            CustomerName(s.store.customers, ss.customerId), ss.customerClass,
                            total, CartProfit(ss.cart, ss.customerClass), ss.payment,
                            st.cash, st.credit, st.mobile, st.change);
        var store := s.store.(products := Apply(s.store.products, ss.cart, Sell),
                              customers := customers,
                              sales := s.store.sales + [sale]);
        Ok(State(store, ClearSession(ss)))
  }

  /** Each product on the cart loses its line quantity from stock and gains it
      in its sales count; products not on the cart are untouched. */
  lemma CommitMovesStock(s: State, saleId: string, id: ProductId)
    requires UniqueIds(s.session.cart)
    requires CompleteSale(s, saleId).Ok?
    requires id in s.store.products
    ensures var p := s.store.products[id];
      var q := CompleteSale(s, saleId).next.store.products[id];
      match IndexOf(s.session.cart, id)
      case Some(i) =>
        && q == Moved(p, Sell, s.session.cart[i].quantity)
        && q.stock == p.stock - s.session.cart[i].quantity && q.salesCount == p.salesCount + s.session.cart[i].quantity
      case None => q == p
  {
    ApplyAt(s.store.products, s.session.cart, Sell, id);
  }

  /** A checkout of a cart that is within stock leaves no stock negative. */
  lemma CommitKeepsStockNonNegative(s: State, saleId: string)
    requires WellFormed(s.session.cart, s.store.products)
    requires forall id :: id in s.store.products ==> s.store.products[id].stock >= 0
    requires CompleteSale(s, saleId).Ok?
    ensures var after := CompleteSale(s, saleId).next.store.products;
      forall id :: id in after ==> after[id].stock >= 0
  {
    var after := CompleteSale(s, saleId).next.store.products;
    forall id | id in after
      ensures after[id].stock >= 0
    {
      CommitMovesStock(s, saleId, id);
    }
  }

  /** A sale cannot be committed twice: the commit empties the cart, so a
      second attempt is refused for an empty cart and changes nothing. */
  lemma CommitTwiceRefused(s: State, saleId: string, againId: string)
    requires CompleteSale(s, saleId).Ok?
    ensures var s1 := CompleteSale(s, saleId).next;
      CompleteSale(s1, againId) == Err(EmptyCart, s1)
  {
  }

  /** What a selected customer is charged: the whole total on a credit sale,
      the entered credit part on a split sale when it is positive, nothing for
      cash or mobile. */
  lemma CreditCharged(s: State, saleId: string)
    requires CompleteSale(s, saleId).Ok?
    requires s.session.customerId != "" && s.session.customerId in s.store.customers
    ensures var cid := s.session.customerId;
      var before := s.store.customers[cid].credit;
      var after := CompleteSale(s, saleId).next.store.customers[cid].credit;
      var part := OrZero(s.session.creditAmount);
      && (s.session.payment == Credit ==> after == before + CartTotal(s.session.cart, s.session.customerClass))
      && (s.session.payment == Split ==> after == before + (if part > 0 then part else 0))
      && (s.session.payment == Cash || s.session.payment == Mobile ==> after == before)
  {
  }

  /** A split payment with a credit part for a walk-in customer is accepted,
      yet no customer's balance records that credit. */
  lemma WalkInSplitCreditUnposted(s: State, saleId: string)
    requires s.session.customerId == "" && s.session.payment == Split
    requires CompleteSale(s, saleId).Ok?
    ensures CompleteSale(s, saleId).next.store.customers == s.store.customers
    ensures CompleteSale(s, saleId).next.store.sales[|s.store.sales|].creditPayment == OrZero(s.session.creditAmount)
  {
  }
}

=== FILE: held.dfy ===
/** Held transactions: the signed-in user can park the current cart, resume a
    parked cart later, or discard it. */
module Held {
  import opened PosTypes
  import opened Cart
  import opened Commit

  /** The position of the first held cart with id `id`. */
  function FindHeld(held: seq<HeldCart>, id: string): (r: Option<nat>)
    ensures r.Some? ==> r.value < |held| && held[r.value].id == id
    ensures r.Some? ==> forall k :: 0 <= k < r.value ==> held[k].id != id
    ensures r.None? <==> forall k :: 0 <= k < |held| ==> held[k].id != id
  {
    if |held| == 0 then None
    else if held[0].id == id then Some(0)
    else
      match FindHeld(held[1..], id)
      case None => None
      case Some(j) => Some(j + 1)
  }

  /** The held list once the record with id `id` is deleted from the store. */
  function DropHeld(held: seq<HeldCart>, id: string): (r: seq<HeldCart>)
    ensures forall h :: h in r <==> h in held && h.id != id
  {
    if |held| == 0 then []
    else if held[0].id == id then DropHeld(held[1..], id)
    else [held[0]] + DropHeld(held[1..], id)
  }

  /** Deleting an id that no held cart carries changes nothing. */
  lemma {:induction false} DropAbsent(held: seq<HeldCart>, id: string)
    requires forall k :: 0 <= k < |held| ==> held[k].id != id
    ensures DropHeld(held, id) == held
  {
    if |held| > 0 {
      DropAbsent(held[1..], id);
      assert [held[0]] + held[1..] == held;
    }
  }

  /** The customer id stored on a held cart: None for walk-in. */
  function HeldCustomer(cid: CustomerId): (r: Option<CustomerId>)
    ensures r.None? <==> cid == ""
  {
    if cid == "" then None else Some(cid)
  }

  /** The session customer id restored from a held cart: empty for walk-in. */
  function SessionCustomer(o: Option<CustomerId>): (r: CustomerId)
    ensures r == "" <==> o.None? || o.value == ""
  {
    match o
    case None => ""
    case Some(c) => c
  }

  /** Park the cart as a held record with id `heldId` and clear the session;
      refused for an empty cart or when nobody is signed in. */
  function Hold(s: State, signedIn: bool, heldId: string): (r: Step<State>)
    ensures r.Err? ==> r.kept == s
    ensures |s.session.cart| == 0 ==> r == Err(EmptyCart, s)
    ensures |s.session.cart| > 0 && !signedIn ==> r == Err(NotSignedIn, s)
    ensures r.Ok? <==> |s.session.cart| > 0 && signedIn
    ensures r.Ok? ==>
      && r.next.session == ClearSession(s.session)
      && r.next.store.(held := s.store.held) == s.store
      && |r.next.store.held| == |s.store.held| + 1
      && r.next.store.held[..|s.store.held|] == s.store.held
      && var h := r.next.store.held[|s.store.held|];
         h.id == heldId && h.items == s.session.cart && h.customerClass == s.session.customerClass
         && h.customerName == CustomerName(s.store.customers, s.session.customerId)
         && h.customerId == HeldCustomer(s.session.customerId)
         && SessionCustomer(h.customerId) == s.session.customerId
  {
    var ss := s.session;
    if |ss.cart| == 0 then Err(EmptyCart, s)
    else if !signedIn then Err(NotSignedIn, s)
    else
      var h := HeldCart(heldId, ss.cart, CustomerName(s.store.customers, ss.customerId),
                        ss.customerClass, HeldCustomer(ss.customerId));
      Ok(State(s.store.(held := s.store.held + [h]), ClearSession(ss)))
  }

  /** Resume held cart `id`: the session is cleared and then given the held
      items, class and customer, and the held record is deleted. Unknown ids
      are ignored. Without a signed-in user the delete fails after the cart
      has been restored, so the record stays. */
  function Resume(s: State, signedIn: bool, id: string): (r: Step<State>)
    ensures r.Err? ==> r.kept == s
    ensures r.Err? <==> FindHeld(s.store.held, id).None?
    ensures r.Err? ==> r.why == HeldNotFound
    ensures r.Ok? ==>
      var h := s.store.held[FindHeld(s.store.held, id).value];
      && r.next.session == ClearSession(s.session).(cart := h.items, customerClass := h.customerClass,
                                                    customerId := SessionCustomer(h.customerId))
      && r.next.store.(held := s.store.held) == s.store
      && r.next.store.held == (if signedIn then DropHeld(s.store.held, id) else s.store.held)
  {
    match FindHeld(s.store.held, id)
    case None => Err(HeldNotFound, s)
    case Some(k) =>
      var h := s.store.held[k];
      var session := ClearSession(s.session).(cart := h.items, customerClass := h.customerClass,
                                              customerId := SessionCustomer(h.customerId));
      var held := if signedIn then DropHeld(s.store.held, id) else s.store.held;
      Ok(State(s.store.(held := held), session))
  }

  /** Discard held cart `id` without restoring it; needs a signed-in user. */
  function Discard(s: State, signedIn: bool, id: string): (r: Step<State>)
    ensures !signedIn ==> r == Err(NotSignedIn, s)
    ensures signedIn ==> r.Ok? && r.next.session == s.session && r.next.store.(held := s.store.held) == s.store
    ensures signedIn ==> forall h :: h in r.next.store.held <==> h in s.store.held && h.id != id
    ensures signedIn ==> r.next.store.held == DropHeld(s.store.held, id)
  {
    if !signedIn then Err(NotSignedIn, s)
    else Ok(State(s.store.(held := DropHeld(s.store.held, id)), s.session))
  }

  /** Holding a cart and resuming it gives back the same items, class and
      customer with the payment inputs reset, and leaves the store as it was
      before the hold. */
  lemma HoldThenResume(s: State, heldId: string)
    requires |s.session.cart| > 0
    requires forall k :: 0 <= k < |s.store.held| ==> s.store.held[k].id != heldId
    ensures Hold(s, true, heldId).Ok?
    ensures var s1 := Hold(s, true, heldId).next;
      var r := Resume(s1, true, heldId);
      && r.Ok?
      && r.next.store == s.store
      && r.next.session == ClearSession(s.session).(cart := s.session.cart, customerClass := s.session.customerClass,
                                                    customerId := s.session.customerId)
  {
    var s1 := Hold(s, true, heldId).next;
    var held := s.store.held;
    var h := s1.store.held[|held|];
    assert s1.store.held == held + [h];
    assert DropHeld(held + [h], heldId) == held by {
      DropAbsent(held, heldId);
      DropAppend(held, [h], heldId);
      assert DropHeld([h], heldId) == DropHeld([], heldId);
    }
  }

  lemma {:induction false} DropAppend(a: seq<HeldCart>, b: seq<HeldCart>, id: string)
    ensures DropHeld(a + b, id) == DropHeld(a, id) + DropHeld(b, id)
  {
    if |a| == 0 {
      assert a + b == b;
    } else {
      assert (a + b)[0] == a[0];
      assert (a + b)[1..] == a[1..] + b;
      DropAppend(a[1..], b, id);
    }
  }

  /** A discarded held cart can no longer be resumed. */
  lemma DiscardThenResume(s: State, id: string)
    ensures var s1 := Discard(s, true, id).next;
      Resume(s1, true, id) == Err(HeldNotFound, s1)
  {
  }
}

=== FILE: inventory.dfy ===
/** Stock write-back for a list of lines. Both the checkout and the return
    read each product from the catalogue as it stood when the operation began
    and write that value moved by the line quantity; a line whose product is
    no longer in the catalogue is skipped. */
module Inventory {
  import opened PosTypes
  import opened Lines

  /** A sale takes stock out and counts the units sold; a return puts stock
      back and leaves the sales count alone. */
  datatype Movement = Sell | Restock

  function Moved(p: Product, m: Movement, q: int): (r: Product)
    ensures r.name == p.name && r.purchasePrice == p.purchasePrice
    ensures r.bulkPrice == p.bulkPrice && r.individualPrice == p.individualPrice
    ensures m == Sell ==> r.stock == p.stock - q && r.salesCount == p.salesCount + q
    ensures m == Restock ==> r.stock == p.stock + q && r.salesCount == p.salesCount
  {
    match m
    case Sell => p.(stock := p.stock - q, salesCount := p.salesCount + q)
    case Restock => p.(stock := p.stock + q)
  }

  /** Write every line back in order into `acc`, each write computed from
      `snapshot`, the catalogue read at the start. */
  function WriteBack(snapshot: map<ProductId, Product>, acc: map<ProductId, Product>, lines: seq<CartLine>, m: Movement)
    : (r: map<ProductId, Product>)
    requires acc.Keys == snapshot.Keys
    ensures r.Keys == snapshot.Keys
    decreases |lines|
  {
    if |lines| == 0 then acc
    else
      var l := lines[0];
      var acc' := if l.id in snapshot then acc[l.id := Moved(snapshot[l.id], m, l.quantity)] else acc;
      WriteBack(snapshot, acc', lines[1..], m)
  }

  /** The catalogue after moving every line's quantity. */
  function Apply(products: map<ProductId, Product>, lines: seq<CartLine>, m: Movement): (r: map<ProductId, Product>)
    ensures r.Keys == products.Keys
  {
    WriteBack(products, products, lines, m)
  }

  /** With at most one line per product, the write-back moves each product by
      its own line's quantity and leaves products without a line as they were. */
  lemma {:induction false} WriteBackAt(snapshot: map<ProductId, Product>, acc: map<ProductId, Product>,
                                       lines: seq<CartLine>, m: Movement, id: ProductId)
    requires acc.Keys == snapshot.Keys
    requires UniqueIds(lines)
    requires id in snapshot
    ensures WriteBack(snapshot, acc, lines, m)[id] ==
      match IndexOf(lines, id)
      case Some(i) => Moved(snapshot[id], m, lines[i].quantity)
      case None => acc[id]
    decreases |lines|
  {
    if |lines| > 0 {
      var l := lines[0];
      var acc' := if l.id in snapshot then acc[l.id := Moved(snapshot[l.id], m, l.quantity)] else acc;
      assert UniqueIds(lines[1..]);
      WriteBackAt(snapshot, acc', lines[1..], m, id);
      if l.id == id {
        assert IndexOf(lines[1..], id).None?;
      }
    }
  }

  /** The effect of `Apply` on one product, when no product has two lines. */
  lemma ApplyAt(products: map<ProductId, Product>, lines: seq<CartLine>, m: Movement, id: ProductId)
    requires UniqueIds(lines)
    requires id in products
    ensures Apply(products, lines, m)[id] ==
      match IndexOf(lines, id)
      case Some(i) => Moved(products[id], m, lines[i].quantity)
      case None => products[id]
  {
    WriteBackAt(products, products, lines, m, id);
  }
}

=== FILE: lines.dfy ===
/** Lookups over sequences of cart lines, shared by the cart, the sale commit
    and the returns processor. */
module Lines {
  import opened PosTypes

  /** The position of the first line for product `id` (the source's
      `findIndex`/`find` by id), or None when there is none. */
  function IndexOf(lines: seq<CartLine>, id: ProductId): (r: Option<nat>)
    ensures r.Some? ==> r.value < |lines| && lines[r.value].id == id
    ensures r.Some? ==> forall j :: 0 <= j < r.value ==> lines[j].id != id
    ensures r.None? <==> forall j :: 0 <= j < |lines| ==> lines[j].id != id
  {
    if |lines| == 0 then None
    else if lines[0].id == id then Some(0)
    else
      match IndexOf(lines[1..], id)
      case None => None
      case Some(j) => Some(j + 1)
  }

  /** Every product appears on at most one line. */
  predicate UniqueIds(lines: seq<CartLine>)
  {
    forall i, j :: 0 <= i < j < |lines| ==> lines[i].id != lines[j].id
  }

  /** The lines whose id differs from `id`, in their original order. */
  function Without(lines: seq<CartLine>, id: ProductId): (r: seq<CartLine>)
    ensures |r| <= |lines|
    ensures (forall j :: 0 <= j < |lines| ==> lines[j].id != id) ==> r == lines
  {
    if |lines| == 0 then []
    else if lines[0].id == id then Without(lines[1..], id)
    else [lines[0]] + Without(lines[1..], id)
  }

  /** The filtered lines are exactly the lines for other products. */
  lemma {:induction false} WithoutMembers(lines: seq<CartLine>, id: ProductId)
    ensures forall l :: l in Without(lines, id) <==> l in lines && l.id != id
  {
    if |lines| > 0 {
      WithoutMembers(lines[1..], id);
      assert lines == [lines[0]] + lines[1..];
    }
  }

  /** Filtering keeps the relative order: it distributes over concatenation. */
  lemma {:induction false} WithoutAppend(a: seq<CartLine>, b: seq<CartLine>, id: ProductId)
    ensures Without(a + b, id) == Without(a, id) + Without(b, id)
  {
    if |a| == 0 {
      assert a + b == b;
    } else {
      assert (a + b)[0] == a[0];
      assert (a + b)[1..] == a[1..] + b;
      WithoutAppend(a[1..], b, id);
    }
  }
}

=== FILE: manual.dfy ===
/** Manual sales: an administrator records a sale of one product in a given
    quantity, outside the cart. The same stock and credit rules apply as at
    checkout, for a single line. */
module Manual {
  import opened PosTypes
  import opened Pricing
  import opened Cart
  import opened Inventory

  datatype SaleType = Individual | Bulk

  /** The manual-sale form offers only cash and credit. */
  type ManualPayment = m: PaymentMethod | m == Cash || m == Credit witness Cash

  /** The manual-sale form. An empty product or customer id means none was
      chosen; `quantity` is None when the entry has no leading integer (blank
      or non-numeric), and a fractional entry is cut to its integer part. */
  datatype ManualForm = ManualForm(
    productId: ProductId,
    customerId: CustomerId,
    saleType: SaleType,
    quantity: Option<int>,
    payment: ManualPayment)

  /** The unit price of a manual sale: bulk or individual tier, missing as 0. */
  function ManualUnitPrice(p: Product, t: SaleType): int
  {
    if t == Bulk then OrZero(p.bulkPrice) else OrZero(p.individualPrice)
  }

  /** Record the manual sale in form `f`; `saleId` is the id the store gives
      the new sale record. */
  function RecordSale(s: State, isAdmin: bool, f: ManualForm, saleId: string): (r: Step<State>)
    ensures r.Err? ==> r.kept == s
    ensures !isAdmin ==> r == Err(PrivilegeDenied, s)
    ensures r.Ok? <==>
      && isAdmin && f.productId != "" && f.quantity.Some? && f.quantity.value > 0
      && f.productId in s.store.products
      && f.quantity.value <= s.store.products[f.productId].stock
    ensures r.Ok? ==>
      r.next.store.products.Keys == s.store.products.Keys && |r.next.store.sales| == |s.store.sales| + 1
    ensures r.Ok? ==>
      var q := f.quantity.value;
      var p := s.store.products[f.productId];
      var p' := r.next.store.products[f.productId];
      var unit := ManualUnitPrice(p, f.saleType);
      && r.next.session == s.session
      && r.next.store.expenses == s.store.expenses
      && r.next.store.held == s.store.held
      && r.next.store.products == s.store.products[f.productId := p']
      && p' == Moved(p, Sell, q)
      && p'.stock == p.stock - q && p'.stock >= 0
      && p'.salesCount == p.salesCount + q
      && r.next.store.sales[..|s.store.sales|] == s.store.sales
      && r.next.store.sales[|s.store.sales|]
           == ManualSale(saleId, f.productId, p.name, if f.customerId == "" then None else Some(f.customerId),
                         if f.customerId != "" && f.customerId in s.store.customers
                         then s.store.customers[f.customerId].name else "Walk-in Customer",
                         q, unit, unit * q, (unit - OrZero(p.purchasePrice)) * q, f.payment)
      && r.next.store.customers.Keys == s.store.customers.Keys
      && (forall c :: c in s.store.customers ==> r.next.store.customers[c].name == s.store.customers[c].name)
      && forall c :: c in s.store.customers ==>
           r.next.store.customers[c].credit == s.store.customers[c].credit
             + (if c == f.customerId && c != "" && f.payment == Credit then unit * q else 0)
  {
    if !isAdmin then Err(PrivilegeDenied, s)
    else if f.productId == "" || f.quantity.None? || f.quantity.value <= 0 then Err(InvalidManualSale, s)
    else if f.productId !in s.store.products then Err(UnknownProduct, s)
    else
      var p := s.store.products[f.productId];
      var q := f.quantity.value;
      if p.stock < q then Err(StockExceeded, s)
      else
        var unit := ManualUnitPrice(p, f.saleType);
        var total := unit * q;
        var found := f.customerId != "" && f.customerId in s.store.customers;
        var name := if found then s.store.customers[f.customerId].name else "Walk-in Customer";
        var customers := if found && f.payment == Credit
                         then s.store.customers[f.customerId := s.store.customers[f.customerId].(
                                credit := s.store.customers[f.customerId].credit + total)]
                         else s.store.customers;
        var sale := ManualSale(saleId, f.productId, p.name, if f.customerId == "" then None else Some(f.customerId),
                               name, q, unit, total, (unit - OrZero(p.purchasePrice)) * q, f.payment);
        var store := s.store.(products := s.store.products[f.productId := Moved(p, Sell, q)],
                              customers := customers,
                              sales := s.store.sales + [sale]);
        Ok(State(store, s.session))
  }

  /** The customer class whose price tier a manual sale type uses. */
  function ClassOf(t: SaleType): CustomerClass
  {
    if t == Bulk then Wholesale else Retail
  }

  /** A manual sale is priced exactly as a one-line cart of the same product
      and quantity would be at checkout, with bulk as wholesale: the same
      total and the same profit. */
  lemma ManualMatchesCheckout(s: State, isAdmin: bool, f: ManualForm, saleId: string)
    requires RecordSale(s, isAdmin, f, saleId).Ok?
    ensures var line := Snapshot(f.productId, s.store.products[f.productId]).(quantity := f.quantity.value);
      var sale := RecordSale(s, isAdmin, f, saleId).next.store.sales[|s.store.sales|];
      && sale.totalAmount == CartTotal([line], ClassOf(f.saleType))
      && sale.profit == CartProfit([line], ClassOf(f.saleType))
  {
  }
}

=== FILE: payment.dfy ===
/** Payment validation at checkout: one of cash, credit, mobile or split
    payment is checked against the cart total and turned into the amounts
    paid per channel and the change handed back. */
module Payment {
  import opened PosTypes

  /** What each channel receives and the change due. */
  datatype Settlement = Settlement(cash: int, credit: int, mobile: int, change: int)

  /** Check the session's payment against `total`. Cash must cover the total;
      a split payment's three amounts together must cover it; credit needs a
      selected customer; mobile payment is always accepted. */
  function Settle(total: int, ss: Session): (r: Checked<Settlement>)
    ensures ss.payment == Cash ==>
      (r.Pass? <==> OrZero(ss.cashReceived) >= total) &&
      (r.Fail? ==> r.reason == InsufficientCash) &&
      (r.Pass? ==> r.value.cash == OrZero(ss.cashReceived) && r.value.credit == 0 && r.value.mobile == 0)
    ensures ss.payment == Split ==>
      (r.Pass? <==> OrZero(ss.cashAmount) + OrZero(ss.creditAmount) + OrZero(ss.mobileAmount) >= total) &&
      (r.Fail? ==> r.reason == SplitShort) &&
      (r.Pass? ==> r.value.cash == OrZero(ss.cashAmount) && r.value.credit == OrZero(ss.creditAmount)
                   && r.value.mobile == OrZero(ss.mobileAmount))
    ensures ss.payment == Credit ==>
      (r.Pass? <==> ss.customerId != "") &&
      (r.Fail? ==> r.reason == NoCreditCustomer) &&
      (r.Pass? ==> r.value.credit == total && r.value.cash == 0 && r.value.mobile == 0)
    ensures ss.payment == Mobile ==>
      r.Pass? && r.value.mobile == total && r.value.cash == 0 && r.value.credit == 0
    ensures r.Pass? ==> r.value.change >= 0
    ensures r.Pass? ==> r.value.cash + r.value.credit + r.value.mobile == total + r.value.change
    ensures r.Pass? && (ss.payment == Credit || ss.payment == Mobile) ==> r.value.change == 0
  {
    match ss.payment
    case Cash =>
      var received := OrZero(ss.cashReceived);
      if received < total then Fail(InsufficientCash)
      else Pass(Settlement(received, 0, 0, received - total))
    case Split =>
      var cash := OrZero(ss.cashAmount);
      var credit := OrZero(ss.creditAmount);
      var mobile := OrZero(ss.mobileAmount);
      if cash + credit + mobile < total then Fail(SplitShort)
      else Pass(Settlement(cash, credit, mobile, cash + credit + mobile - total))
    case Credit =>
      if ss.customerId == "" then Fail(NoCreditCustomer)
      else Pass(Settlement(0, total, 0, 0))
    case Mobile =>
      Pass(Settlement(0, 0, total, 0))
  }
}

=== FILE: pricing.dfy ===
/** Pricing of the cart: the customer class picks the price tier of every
    line, and the subtotal, total and profit are sums over the lines,
    evaluated with the class current at evaluation time. */
module Pricing {
  import opened PosTypes

  /** The tier price of one unit: `bulkPrice` for wholesale customers,
      `individualPrice` otherwise; a missing price counts as 0. */
  function UnitPrice(l: CartLine, c: CustomerClass): int
  {
    if c == Wholesale then OrZero(l.bulkPrice) else OrZero(l.individualPrice)
  }

  function LineTotal(l: CartLine, c: CustomerClass): int
  {
    UnitPrice(l, c) * l.quantity
  }

  function LineProfit(l: CartLine, c: CustomerClass): int
  {
    (UnitPrice(l, c) - OrZero(l.purchasePrice)) * l.quantity
  }

  function LineCost(l: CartLine): int
  {
    OrZero(l.purchasePrice) * l.quantity
  }

  /** The cart total. The source renders the subtotal and the total with the
      same expression, so this one function is both. */
  function CartTotal(cart: seq<CartLine>, c: CustomerClass): int
  {
    if |cart| == 0 then 0 else LineTotal(cart[0], c) + CartTotal(cart[1..], c)
  }

  function CartProfit(cart: seq<CartLine>, c: CustomerClass): int
  {
    if |cart| == 0 then 0 else LineProfit(cart[0], c) + CartProfit(cart[1..], c)
  }

  /** What the goods on the cart cost the shop, at the snapshotted purchase prices. */
  function CartCost(cart: seq<CartLine>): int
  {
    if |cart| == 0 then 0 else LineCost(cart[0]) + CartCost(cart[1..])
  }

  /** Profit is exactly the total less the purchase cost, for either class. */
  lemma {:induction false} TotalMinusProfitIsCost(cart: seq<CartLine>, c: CustomerClass)
    ensures CartTotal(cart, c) - CartProfit(cart, c) == CartCost(cart)
  {
    if |cart| > 0 {
      TotalMinusProfitIsCost(cart[1..], c);
      var l := cart[0];
      calc {
        LineTotal(l, c) - LineProfit(l, c);
        UnitPrice(l, c) * l.quantity - (UnitPrice(l, c) - OrZero(l.purchasePrice)) * l.quantity;
        { assert (UnitPrice(l, c) - OrZero(l.purchasePrice)) * l.quantity
            == UnitPrice(l, c) * l.quantity - OrZero(l.purchasePrice) * l.quantity; }
        LineCost(l);
      }
    }
  }

  /** The total of two carts laid end to end is the sum of their totals. */
  lemma {:induction false} TotalAppend(a: seq<CartLine>, b: seq<CartLine>, c: CustomerClass)
    ensures CartTotal(a + b, c) == CartTotal(a, c) + CartTotal(b, c)
  {
    if |a| == 0 {
      assert a + b == b;
    } else {
      assert (a + b)[0] == a[0];
      assert (a + b)[1..] == a[1..] + b;
      TotalAppend(a[1..], b, c);
    }
  }

  /** Replacing one line changes the total by exactly that line's difference. */
  lemma {:induction false} TotalUpdate(cart: seq<CartLine>, i: nat, l: CartLine, c: CustomerClass)
    requires i < |cart|
    ensures CartTotal(cart[i := l], c) == CartTotal(cart, c) - LineTotal(cart[i], c) + LineTotal(l, c)
  {
    if i > 0 {
      assert cart[i := l][1..] == cart[1..][i - 1 := l];
      TotalUpdate(cart[1..], i - 1, l, c);
    }
  }

  /** With non-negative prices and quantities no total is negative. */
  lemma {:induction false} TotalNonNegative(cart: seq<CartLine>, c: CustomerClass)
    requires forall i :: 0 <= i < |cart| ==> cart[i].quantity >= 0
    requires forall i :: 0 <= i < |cart| ==> UnitPrice(cart[i], c) >= 0
    ensures CartTotal(cart, c) >= 0
  {
    if |cart| > 0 {
      TotalNonNegative(cart[1..], c);
      assert LineTotal(cart[0], c) >= 0;
    }
  }
}

=== FILE: returns.dfy ===
/** Returns: an administrator refunds a recorded point-of-sale sale. The goods
    go back into stock and a refund expense is booked; the sale record, the
    products' sales counts and the customer's credit are left as they were. */
module Returns {
  import opened PosTypes
  import opened Lines
  import opened Pricing
  import opened Cart
  import opened Inventory
  import opened Commit

  /** The position of the first sale with id `id`. */
  function FindSale(sales: seq<Sale>, id: string): (r: Option<nat>)
    ensures r.Some? ==> r.value < |sales| && sales[r.value].id == id
    ensures r.Some? ==> forall k :: 0 <= k < r.value ==> sales[k].id != id
    ensures r.None? <==> forall k :: 0 <= k < |sales| ==> sales[k].id != id
  {
    if |sales| == 0 then None
    else if sales[0].id == id then Some(0)
    else
      match FindSale(sales[1..], id)
      case None => None
      case Some(j) => Some(j + 1)
  }

  function RefundDescription(sale: Sale, reason: string): string
  {
    "Refund for sale ID " + sale.id + " (" + sale.customerName + ") - Reason: " + reason
  }

  /** The expense a refund books: type refund, the sale's total, no supplier. */
  function RefundExpense(sale: Sale, reason: string): Expense
  {
    Expense(Refund, RefundDescription(sale, reason), sale.totalAmount, "N/A")
  }

  /** Process the return entered in the session's return form. Refused without
      the administrator flag, without a sale id or a reason, for an unknown
      sale, and for a manual sale, which has no line list to restock. */
  function ProcessReturn(s: State, isAdmin: bool): (r: Step<State>)
    ensures r.Err? ==> r.kept == s
    ensures !isAdmin ==> r == Err(PrivilegeDenied, s)
    ensures r.Ok? <==>
      && isAdmin && s.session.returnSaleId != "" && s.session.returnReason != ""
      && FindSale(s.store.sales, s.session.returnSaleId).Some?
      && s.store.sales[FindSale(s.store.sales, s.session.returnSaleId).value].PosSale?
    ensures r.Ok? ==>
      var sale := s.store.sales[FindSale(s.store.sales, s.session.returnSaleId).value];
      && r.next.store.sales == s.store.sales
      && r.next.store.customers == s.store.customers
      && r.next.store.held == s.store.held
      && r.next.store.expenses == s.store.expenses + [RefundExpense(sale, s.session.returnReason)]
      && r.next.store.products.Keys == s.store.products.Keys
      && (forall id :: id in s.store.products ==>
            r.next.store.products[id].salesCount == s.store.products[id].salesCount)
      && r.next.session == s.session.(returnSaleId := "", returnReason := "")
  {
    var ss := s.session;
    if !isAdmin then Err(PrivilegeDenied, s)
    else if ss.returnSaleId == "" then Err(NoSaleSelected, s)
    else if ss.returnReason == "" then Err(NoReturnReason, s)
    else
      match FindSale(s.store.sales, ss.returnSaleId)
      case None => Err(SaleNotFound, s)
      case Some(k) =>
        var sale := s.store.sales[k];
        if !sale.PosSale? then Err(NotReturnable, s)
        else
          assert forall id :: id in s.store.products ==>
            Apply(s.store.products, sale.lines, Restock)[id].salesCount == s.store.products[id].salesCount by {
            forall id | id in s.store.products
              ensures Apply(s.store.products, sale.lines, Restock)[id].salesCount == s.store.products[id].salesCount
            {
              RestockKeepsSalesCount(s.store.products, s.store.products, sale.lines, id);
            }
          }
          var store := s.store.(products := Apply(s.store.products, sale.lines, Restock),
                                expenses := s.store.expenses + [RefundExpense(sale, ss.returnReason)]);
          Ok(State(store, ss.(returnSaleId := "", returnReason := "")))
  }

  /** A restock never touches a sales count, whatever the lines. */
  lemma {:induction false} RestockKeepsSalesCount(snapshot: map<ProductId, Product>, acc: map<ProductId, Product>,
                                                  lines: seq<CartLine>, id: ProductId)
    requires acc.Keys == snapshot.Keys
    requires id in snapshot
    requires forall k :: k in acc ==> acc[k].salesCount == snapshot[k].salesCount
    ensures WriteBack(snapshot, acc, lines, Restock)[id].salesCount == snapshot[id].salesCount
    decreases |lines|
  {
    if |lines| > 0 {
      var l := lines[0];
      var acc' := if l.id in snapshot then acc[l.id := Moved(snapshot[l.id], Restock, l.quantity)] else acc;
      RestockKeepsSalesCount(snapshot, acc', lines[1..], id);
    }
  }

  /** Each product on the returned sale gets its line quantity back in stock;
      other products are untouched. */
  lemma ReturnRestocks(s: State, isAdmin: bool, id: ProductId)
    requires ProcessReturn(s, isAdmin).Ok?
    requires UniqueIds(s.store.sales[FindSale(s.store.sales, s.session.returnSaleId).value].lines)
    requires id in s.store.products
    ensures var lines := s.store.sales[FindSale(s.store.sales, s.session.returnSaleId).value].lines;
      var p := s.store.products[id];
      var q := ProcessReturn(s, isAdmin).next.store.products[id];
      match IndexOf(lines, id)
      case Some(i) =>
        && q == Moved(p, Restock, lines[i].quantity)
        && q.stock == p.stock + lines[i].quantity && q.salesCount == p.salesCount
      case None => q == p
  {
    var lines := s.store.sales[FindSale(s.store.sales, s.session.returnSaleId).value].lines;
    ApplyAt(s.store.products, lines, Restock, id);
  }

  /** Selling a cart and then returning that sale restores every product's
      stock, but the sales counts stay raised, the sale stays in the ledger,
      any credit posted at checkout stays on the customer, and a refund of
      the full total is booked. */
  lemma SellThenReturn(s: State, saleId: string, reason: string, id: ProductId)
    requires UniqueIds(s.session.cart)
    requires CompleteSale(s, saleId).Ok?
    requires saleId != "" && reason != ""
    requires forall k :: 0 <= k < |s.store.sales| ==> s.store.sales[k].id != saleId
    requires id in s.store.products
    ensures var s1 := CompleteSale(s, saleId).next;
      var s2 := State(s1.store, s1.session.(returnSaleId := saleId, returnReason := reason));
      var r := ProcessReturn(s2, true);
      && r.Ok?
      && r.next.store.products[id].stock == s.store.products[id].stock
      && r.next.store.products[id].salesCount
           == s.store.products[id].salesCount + (match IndexOf(s.session.cart, id) case Some(i) => s.session.cart[i].quantity case None => 0)
      && r.next.store.customers == s1.store.customers
      && r.next.store.sales == s1.store.sales
      && r.next.store.expenses == s.store.expenses
           + [Expense(Refund, RefundDescription(s1.store.sales[|s.store.sales|], reason),
                      CartTotal(s.session.cart, s.session.customerClass), "N/A")]
  {
    var s1 := CompleteSale(s, saleId).next;
    var s2 := State(s1.store, s1.session.(returnSaleId := saleId, returnReason := reason));
    var n := |s.store.sales|;
    var sale := s1.store.sales[n];
    assert sale.PosSale? && sale.id == saleId && sale.lines == s.session.cart;
    assert s1.store.sales == s.store.sales + [sale];
    FindAppended(s.store.sales, sale);
    assert ProcessReturn(s2, true).Ok?;
    CommitMovesStock(s, saleId, id);
    ReturnRestocks(s2, true, id);
  }

  /** A sale appended under a fresh id is found at the end of the ledger. */
  lemma {:induction false} FindAppended(sales: seq<Sale>, sale: Sale)
    requires forall k :: 0 <= k < |sales| ==> sales[k].id != sale.id
    ensures FindSale(sales + [sale], sale.id) == Some(|sales|)
  {
    if |sales| > 0 {
      assert (sales + [sale])[1..] == sales[1..] + [sale];
      FindAppended(sales[1..], sale);
    }
  }

  /** Nothing marks a sale as returned: the same sale can be refunded again,
      restocking its goods and booking a second refund. */
  lemma ReturnIsRepeatable(s: State, saleId: string, reason: string)
    requires ProcessReturn(s, true).Ok?
    requires saleId == s.session.returnSaleId && reason == s.session.returnReason
    ensures var s1 := ProcessReturn(s, true).next;
      var again := ProcessReturn(State(s1.store, s1.session.(returnSaleId := saleId, returnReason := reason)), true);
      again.Ok? && |again.next.store.expenses| == |s.store.expenses| + 2
  {
  }
}

=== FILE: scenarios.dfy ===
/** Worked examples of the engine on one product: a cash sale, a split sale,
    a refused credit sale, an out-of-stock add, and the return of the cash
    sale. */
module Scenarios {
  import opened PosTypes
  import opened Pricing
  import opened Cart
  import opened Commit
  import opened Returns

  /** A product with 10 in stock, sold at 500 retail and bought at 300. */
  function Cake(): Product
  {
    Product("Cake", Some(300), Some(450), Some(500), 10, 0)
  }

  function Shop(): Store
  {
    Store(map["cake" := Cake()], map[], [], [], [])
  }

  /** A retail walk-in session with three cakes on the cart. */
  function ThreeCakes(m: PaymentMethod, received: int, cash: int, credit: int, mobile: int): Session
  {
    Session([Snapshot("cake", Cake()).(quantity := 3)], "", Retail, m,
            Some(received), Some(cash), Some(credit), Some(mobile), "", "")
  }

  /** Cash 2000 for three cakes: total 1500, change 500, profit 600, 7 left. */
  lemma CashSale()
    ensures var r := CompleteSale(State(Shop(), ThreeCakes(Cash, 2000, 0, 0, 0)), "s1");
      && r.Ok?
      && r.next.store.sales[0].totalAmount == 1500
      && r.next.store.sales[0].change == 500
      && r.next.store.sales[0].profit == 600
      && r.next.store.products["cake"].stock == 7
  {
  }

  /** 500 each in cash, credit and mobile covers 1500 exactly: no change. */
  lemma SplitSale()
    ensures var r := CompleteSale(State(Shop(), ThreeCakes(Split, 0, 500, 500, 500)), "s1");
      && r.Ok?
      && r.next.store.sales[0].totalAmount == 1500
      && r.next.store.sales[0].change == 0
  {
  }

  /** Credit for a walk-in customer is refused and nothing changes. */
  lemma CreditWithoutCustomer()
    ensures var s := State(Shop(), ThreeCakes(Credit, 0, 0, 0, 0));
      CompleteSale(s, "s1") == Err(NoCreditCustomer, s)
  {
  }

  /** Adding a product with no stock is refused. */
  lemma AddSoldOut()
    ensures AddProduct([], map["cake" := Cake().(stock := 0)], "cake") == Err(OutOfStock, [])
  {
  }

  /** Returning the cash sale for "damaged" puts the 3 cakes back (10 in
      stock), books a 1500 refund, and keeps the sale and its sales count. */
  lemma ReturnCashSale()
    ensures var s1 := CompleteSale(State(Shop(), ThreeCakes(Cash, 2000, 0, 0, 0)), "s1").next;
      var r := ProcessReturn(State(s1.store, s1.session.(returnSaleId := "s1", returnReason := "damaged")), true);
      && r.Ok?
      && r.next.store.products["cake"].stock == 10
      && r.next.store.products["cake"].salesCount == 3
      && r.next.store.sales == s1.store.sales
      && |r.next.store.expenses| == 1
      && r.next.store.expenses[0].kind == Refund
      && r.next.store.expenses[0].amount == 1500
  {
  }
}

=== FILE: types.dfy ===
/** Entities of the point-of-sale transaction engine: the catalogue records the
    engine reads and writes, the active session (cart and payment form), the
    ledgers it appends to, and the outcome of every state transition. */
module PosTypes {

  datatype Option<+T> = None | Some(value: T)

  /** A numeric field read with `field || 0`: an absent or unparsable value counts as 0. */
  function OrZero(o: Option<int>): int
  {
    match o
    case Some(v) => v
    case None => 0
  }

  type ProductId = string
  type CustomerId = string

  /** A catalogue product. Prices may be missing on the stored record. */
  datatype Product = Product(
    name: string,
    purchasePrice: Option<int>,
    bulkPrice: Option<int>,
    individualPrice: Option<int>,
    stock: int,
    salesCount: int)

  /** A customer; `credit` is the amount the customer owes the shop. */
  datatype Customer = Customer(name: string, credit: int)

  /** One cart line: the product id, a snapshot of its name and prices taken
      when it was first added, and the quantity. */
  datatype CartLine = CartLine(
    id: ProductId,
    name: string,
    purchasePrice: Option<int>,
    bulkPrice: Option<int>,
    individualPrice: Option<int>,
    quantity: int)

  datatype CustomerClass = Retail | Wholesale

  datatype PaymentMethod = Cash | Credit | Mobile | Split

  /** The active point-of-sale session. An empty `customerId` is the walk-in
      customer; the payment fields are the parsed form inputs. The return
      form (sale id and reason) lives here too. */
  datatype Session = Session(
    cart: seq<CartLine>,
    customerId: CustomerId,
    customerClass: CustomerClass,
    payment: PaymentMethod,
    cashReceived: Option<int>,
    cashAmount: Option<int>,
    creditAmount: Option<int>,
    mobileAmount: Option<int>,
    returnSaleId: string,
    returnReason: string)

  /** A sales-ledger entry: either a point-of-sale checkout with a snapshot of
      its lines, or a manual single-product sale. */
  datatype Sale =
    | PosSale(
        id: string,
        lines: seq<CartLine>,
        customerId: string,
        customerName: string,
        customerClass: CustomerClass,
        totalAmount: int,
        profit: int,
        payment: PaymentMethod,
        cashReceived: int,
        creditPayment: int,
        mobilePayment: int,
        change: int)
    | ManualSale(
        id: string,
        productId: ProductId,
        productName: string,
        manualCustomerId: Option<CustomerId>,
        customerName: string,
        quantity: int,
        unitPrice: int,
        totalAmount: int,
        profit: int,
        payment: PaymentMethod)

  datatype ExpenseKind = SupplierPayment | Rent | Utilities | Transport | Supplies | OtherExpense | Refund

  datatype Expense = Expense(kind: ExpenseKind, description: string, amount: int, supplier: string)

  /** A parked cart of the signed-in user; `customerId` is None for walk-in. */
  datatype HeldCart = HeldCart(
    id: string,
    items: seq<CartLine>,
    customerName: string,
    customerClass: CustomerClass,
    customerId: Option<CustomerId>)

  /** The document store as the engine sees it: products and customers by id,
      the append-only sales and expense ledgers, and the signed-in user's
      held carts. */
  datatype Store = Store(
    products: map<ProductId, Product>,
    customers: map<CustomerId, Customer>,
    sales: seq<Sale>,
    expenses: seq<Expense>,
    held: seq<HeldCart>)

  datatype State = State(store: Store, session: Session)

  /** Why an operation was refused. */
  datatype Reason =
    | UnknownProduct
    | OutOfStock
    | StockExceeded
    | NotInCart
    | EmptyCart
    | InsufficientCash
    | SplitShort
    | NoCreditCustomer
    | NotSignedIn
    | HeldNotFound
    | PrivilegeDenied
    | NoSaleSelected
    | NoReturnReason
    | SaleNotFound
    | NotReturnable
    | InvalidManualSale

  /** The outcome of a state transition: the new state, or the reason it was
      refused together with the state it leaves untouched. */
  datatype Step<T> = Ok(next: T) | Err(why: Reason, kept: T) {
    function Result(): T
    {
      match this
      case Ok(n) => n
      case Err(_, k) => k
    }
  }

  /** The outcome of a check that changes no state. */
  datatype Checked<T> = Pass(value: T) | Fail(reason: Reason)
}
